=== FILE: README.md ===
# tlock — a Dafny model of the terminal locker's core

tlock locks a terminal until the owner's password is typed. At startup it looks up the
caller's passwd entry. It then raises its privileges to read the caller's shadow entry and
drops them again. It draws the display name centred on the screen and reads passwords with
a masked, erasable prompt until one hashes to the stored hash.

This project models the pure logic of that program, in five modules:

- `Wrappers`: `Option`.
- `Bytes`: bytes and C strings. A string is everything before the first NUL. Also holds
  the control bytes the program reacts to.
- `Width`: the display-width scanner `tl_strlen` and the centring helper `tl_hmiddle`.
  - The scanner skips escape sequences and counts each UTF-8 lead byte and its trailing
    bytes as one cell.
  - It is proved against an independent reference definition. That definition treats
    text as a list of tokens: control sequences and glyphs.
- `Password`: the masked edit loop `tl_getpassword` and the redraw `tl_showpassword`.
  - The loop is a fold of one keystroke over the input. It records the buffer and the
    length passed to every redraw.
  - Two array-based methods implement it over a 256-byte buffer.
- `Lock`: `main`.
  - The startup sequence and its exit codes.
  - How the effective and real user ids change around the shadow lookup.
  - `tl_getenv` and the centred greeting.
  - The prompt-and-check loop over a finite input.

External calls become parameters:
- `getpwuid`, `setreuid`, `getspnam` and their outcomes are an `Oracles` value.
- `crypt` plus the comparison in `tl_checkpassword` is a predicate `matches(candidate, hash)`.
  It is applied to the hash that startup read from the shadow entry.
- The terminal size is a `Screen`.
- The environment is an `Env`.
- The keyboard is a finite sequence of bytes.

`main` returns 2 right after a failed `getspnam` and never calls `setreuid(uid, uid)`, so
that path exits with both ids the superuser's (`Lock.StartupPrivilege`).

## Model

| member | source | states |
|---|---|---|
| Bytes.CString | src/main.c:67 | A C string ends at its first NUL: the result contains no NUL, is a prefix of the memory, and is followed by a NUL unless it is all of it |
| Bytes.RepeatBlock | src/main.c:143-146 | After `n` passes of the loop, the `k`-th block printed, as long as `s`, is `s` itself, for every `k < n` |
| Bytes.RepeatCopies | src/main.c:143-146 | What the loop prints is exactly `n` back-to-back copies of `s` (`Copies`): `n` times as long, every block equal to `s` |
| Bytes.CopiesAreRepeat | src/main.c:143-146 | Conversely, any byte string made of `n` back-to-back copies of `s` is what the loop prints |
| Width.Trail | src/main.c:86-105 | A lead byte at or above 0xC0 is followed by between one and five skipped bytes; any byte below 0xC0 skips none |
| Width.Scan | src/main.c:60-111 | The width of a NUL-free string never exceeds its length in bytes |
| Width.Strlen | src/main.c:60-111 | The corrected `tl_strlen` (see Findings) counts within the C string, so never more cells than bytes before the NUL |
| Width.HMiddle | src/main.c:114-118 | The start column is the ceiling of half the free columns: twice it is the free space, or one more when the free space is odd |
| Width.HMiddleCentres | src/main.c:114-118 | The text is centred: the space left of it equals the space right of it, or exceeds it by one |
| Width.HMiddleEdges | src/main.c:114-118 | Empty text starts in the middle column; text as wide as the screen starts at column 0 |
| Width.HMiddleNegative | src/main.c:114-118 | The column is negative exactly when the text is wider than the screen by two or more |
| Width.PlainWidth | src/main.c:67-108 | Text without escapes or lead bytes is as wide as it is long |
| Width.EscapeNarrows | src/main.c:69-73 | Text containing an escape byte is narrower than its length |
| Width.EscapeSequenceWidth | src/main.c:69-83 | An escape sequence up to and including its first letter takes no cells, and the scan resumes outside an escape |
| Width.UnterminatedEscapeWidth | src/main.c:69-83 | An escape never closed by a letter hides everything after it |
| Width.GlyphWidth | src/main.c:86-107 | A lead byte with its trailing bytes takes exactly one cell, whatever those bytes are |
| Width.TokenWidth | src/main.c:67-108 | Each token of the reference definition adds its cell count (0 for a control sequence, 1 for a glyph) to the scan of what follows |
| Width.TokensWidth | src/main.c:60-111 | For every well-formed token list, the scanner's width of its encoding equals the number of glyphs in it |
| Width.RepeatWidth | src/main.c:143-146 | `n` copies of clean text are `n` times as wide as one copy |
| Width.ScanMemory | src/main.c:60-111 | The scanner as written reads memory rather than a string. A width it returns is smaller than the memory it read |
| Width.ScanMemoryStopsOnNul | src/main.c:67 | The scanner as written stops only at a NUL: whenever it returns a width, the memory it read holds a terminator |
| Width.ScanMemoryAgrees | src/main.c:60-111 | The scanner as written gives the corrected width whenever no lead byte's skipped bytes reach the terminator, whatever follows the terminator |
| Width.TruncatedLeadReadsPastTerminator | src/main.c:96-104 | The string holding only 0xC3 makes the scanner step over its terminator. With "A\0" after it in memory it answers 2, and with nothing readable after it the scan runs off memory. The corrected width is 1 |
| Password.Key | src/main.c:179-198 | One keystroke. An erase removes the last byte, or does nothing on an empty buffer. Any other non-newline byte is appended (corrected: only while below the limit). A redraw with the new length is recorded exactly when the buffer changed |
| Password.Feed | src/main.c:173-199 | The keystroke loop up to the first newline. Under the capacity check, a buffer that starts within the limit stays within it |
| Password.FeedExtendsTrace | src/main.c:173-199 | The loop only ever adds redraws; earlier ones are never rewritten |
| Password.KeyConsistent | src/main.c:179-198 | One keystroke keeps the redraw record consistent: consecutive redraws differ by one, the last equals the buffer length, and the buffer holds only typed bytes |
| Password.FeedConsistent | src/main.c:171-199 | The whole loop keeps the redraw record consistent, starting from the first redraw of length 0 |
| Password.LineEnd | src/main.c:192-193 | The loop stops at the first newline, or at the end of the input when there is none |
| Password.Prompt | src/main.c:151-200 | A prompt consumes input up to and including the first newline. It finishes exactly when the input holds a newline. The corrected buffer never exceeds the limit |
| Password.FeedAppend | src/main.c:173-199 | Input without a newline can be fed in pieces: feeding a prefix and then the rest is feeding the whole |
| Password.TypingAppends | src/main.c:195-198 | Typed bytes with room for them land in the buffer in order, each followed by a redraw one longer |
| Password.ErasingRemoves | src/main.c:180-189 | `k` erases remove the last `k` bytes, each followed by a redraw one shorter |
| Password.ErasingEmptyIsNoop | src/main.c:182-189 | Erasing an empty buffer changes nothing and redraws nothing |
| Password.TypeThenErase | src/main.c:151-200 | Typing `n` bytes, erasing `k` of them and pressing enter yields the first `n - k` bytes. The redraws rise from 0 to `n` and fall back to `n - k` |
| Password.EnterEnds | src/main.c:192-193 | A newline ends the prompt with the buffer as typed so far, and leaves the rest of the input unread |
| Password.FiveTypedTwoErased | src/main.c:151-200 | Five letters, DEL, BS and enter redraw with 0, 1, 2, 3, 4, 5, 4 and 3 units |
| Password.Peak | src/main.c:195-196 | The highest buffer length the loop as written reaches over one line is at least its start and its final length |
| Password.PeakBounds | src/main.c:195-196 | No prefix of the line takes the buffer of the loop as written beyond `Peak` |
| Password.PeakReached | src/main.c:195-196 | Some prefix of the line takes the buffer of the loop as written to exactly `Peak` |
| Password.OverflowingInput | src/main.c:195-196 | Typing 256 or more bytes without enter makes the loop as written hold all of them, so its peak passes the last usable slot of the 256-byte buffer |
| Password.CappedAgrees | src/main.c:173-199 | When the input never fills the buffer, the corrected loop behaves exactly like the loop as written |
| Password.PromptCappedAgrees | src/main.c:151-200 | On a line whose peak stays within the limit, the corrected prompt is the prompt as written |
| Password.CappedFill | src/main.c:195-196 | With room for `m` bytes, the corrected loop keeps the first `m` typed bytes and ignores the rest |
| Password.FullIgnoresTyping | src/main.c:195-196 | A full buffer ignores typed bytes in the corrected loop |
| Password.OverflowingInputCapped | src/main.c:195-196 | On the overflowing input, the corrected prompt keeps the first 255 bytes, so the buffer and its terminator fit |
| Password.PeakTyped | src/main.c:195-196 | With only typed bytes, the peak is the start length plus the number typed |
| Password.Keystroke | src/main.c:180-198 | One pass of the loop body on the array: the C string in the array and the redraw log become what `Password.Key` describes, and the array keeps the NUL terminator right after the string, at a position inside the array |
| Password.GetPasswordUnchecked | src/main.c:151-200 | The array loop as written, on input that never fills the buffer, leaves the password and redraws that the fold defines. It reports enter exactly when the input holds a newline |
| Password.GetPassword | src/main.c:151-200 | The corrected array loop yields the capped fold's password and redraws on every input. The password always fits the 256-byte buffer with its terminator |
| Password.ShowPassword | src/main.c:133-149 | A redraw prints exactly `num` back-to-back copies of the mask unit, centred for `num` times its width, one row below the middle |
| Password.Frames | src/main.c:171-198 | One frame per recorded redraw: the redraw for the recorded number of units, whose mask is that many copies of the mask unit |
| Password.MaskFillsCentredWidth | src/main.c:136-146 | For a mask unit that is clean text, the mask drawn is exactly as wide as the width it was centred for |
| Lock.Startup | src/main.c:230-255 | Exit code 1 exactly when the passwd lookup fails, 3 when escalation fails, 2 when the shadow lookup fails, 4 when the restore fails, otherwise ready with the account and stored hash. The terminal is set up only when ready. The passwd lookup comes first. The final ids are those the recorded calls produce |
| Lock.StartupPrivilege | src/main.c:230-255 | Codes 1 and 3 exit with the starting ids. Codes 2 and 4 exit as the superuser. Ready leaves both ids the caller's real uid |
| Lock.IdsAtSetup | src/main.c:251-266 | The terminal is set up only after a successful startup, once, as the last call, and by then both ids are the caller's again: nothing reaches the terminal while the process is the superuser |
| Lock.StartupBracketing | src/main.c:237-255 | The shadow store is read only after a successful escalation, as the third call, with both ids the superuser's. A restore follows exactly when the shadow lookup succeeded |
| Lock.GetEnv | src/main.c:49-57 | The variable's value (a C string) when set and non-empty, otherwise the default; the result is empty only if the default is |
| Lock.Greeting | src/main.c:273-274 | The display name is drawn centred for its own width, one row above the middle |
| Lock.NoLines | src/main.c:192-193 | Input without a newline holds no line to check |
| Lock.LinesAfterLine | src/main.c:279-285 | Each prompt that ends in enter uses up exactly one line of the input |
| Lock.Authenticate | src/main.c:279-285 | At most one check per line typed; while still waiting, every line typed has been checked; unlocking takes at least one check |
| Lock.Candidates | src/main.c:279-283 | The passwords handed to `tl_checkpassword`, one per line typed, each a C string and, under the capacity check, within the limit |
| Lock.AuthenticateChecksInOrder | src/main.c:279-285 | The loop checks the candidates in order against the stored hash: every one before the last check was rejected, the last one accepted when it unlocks, all of them rejected while it waits |
| Lock.UnlocksIffAccepted | src/main.c:279-285 | The loop unlocks exactly when some line typed is a password the check accepts against the stored hash |
| Lock.AuthenticateAsWritten | src/main.c:279-285 | When every line fits the 256-byte buffer, the loop with the capacity check is the loop as written |
| Lock.OverlongLineChecked | src/main.c:195-196 | A line of more than 255 typed bytes reaches the check whole under the loop as written, and cut to its first 255 bytes under the capacity check |
| Lock.FailedAttemptForgotten | src/main.c:279-285 | A rejected password leaves no trace: what follows is checked as if it were the whole input |
| Lock.AcceptedAttemptUnlocks | src/main.c:283-284 | A password `tl_checkpassword` accepts unlocks at the first check |
| Lock.TypedPasswordChecked | src/main.c:281-283 | A password typed without erases and NUL bytes reaches `tl_checkpassword` exactly as typed |
| Lock.WrongThenRight | src/main.c:279-285 | A wrong password, enter, the right one and enter unlock after exactly two checks |
| Lock.WrongThenCorrectExample | src/main.c:279-285 | With a check that accepts exactly the stored entry "correct", typing "wrong", enter, "correct", enter unlocks on the second check |
| Lock.Run | src/main.c:210-291 | The greeting is drawn and the prompt loop entered exactly when startup succeeded. The greeting shows `TL_USERNAME` or the login name. The mask unit is read from `TL_PASS_CHAR` (default " *") only once startup succeeded, and is a non-empty C string |
| Lock.ExitCode | src/main.c:230-290 | A non-zero code is the startup failure's own code; once startup succeeded, the code is 0 exactly when the password loop unlocked, and there is none while it waits |
| Lock.ExitCodes | src/main.c:230-290 | Exit codes 1, 3, 2 and 4 correspond one-to-one to the failing startup step, and none of them touches the terminal. Code 0 comes exactly when startup succeeded and some line typed is accepted against the hash from the shadow entry, and then with both ids the caller's |

## Left out

- Terminal I/O is not modelled:
  - `tl_get_size` (ioctl);
  - the termios mode switch around each `getchar`;
  - terminfo (`setupterm`, `putp`);
  - the cursor escape strings printed by `tl_pos` and `tl_kill`.

  A redraw is modelled as the `Frame` it would draw; the screen size is a parameter.
- Ignoring SIGQUIT, SIGINT, SIGTSTP and SIGHUP (src/main.c:223-226) is not modelled: signals are outside a pure model.
- `getpwuid`, `setreuid`, `getspnam` and `crypt` are external calls. Their answers are the `Oracles` parameter and the `matches` predicate.
- The unbounded prompt loop (src/main.c:279-285) is modelled over the finite input available. `Waiting` means the program would still be blocked reading.
- `getchar` returning EOF is not modelled. The keyboard is a sequence of bytes.
- `tl_hmiddle` uses floating-point `ceil`. The model uses the exact integer ceiling of half the free space. This agrees with the floating-point result for every width a terminal can report.
- `isalpha` is taken in the C locale (ASCII letters). Bytes of 0x80 and above passed to `isalpha` as negative `char` values are treated as non-letters.
- Width.Scan: the C counter is an `int`, and the model does not bound it. The width never exceeds the byte length, and `tl_strlen` is only applied to the display name and the mask unit. These are the login name (one field of a passwd entry), the default " *", or the values of `TL_USERNAME` and `TL_PASS_CHAR`. On Linux, `execve` caps each environment string at 128 KiB, so none of them comes near 2^31 bytes.
- Password.ShowPassword: `num * passchar_len` is computed in `int` and is not wrapped. In the corrected prompt `num` is at most 255 and `passchar_len` at most 128 Ki (the length of an environment string), so the product stays below 2^31. In the loop as written, `num` passes 255 only after the out-of-bounds write listed under Findings.
- Lock.Greeting: centres the display name with the corrected width `Width.Strlen`, not with `tl_strlen` as written (src/main.c:273). The two agree whenever the name does not overrun its terminator (`Width.ScanMemoryAgrees`); they can differ only when the name's last UTF-8 sequence is cut short.
- Password.Frames: centres each redraw with the corrected width of the mask unit, not with `tl_strlen` as written (src/main.c:169). The two agree whenever the mask unit does not overrun its terminator (`Width.ScanMemoryAgrees`).
- Lock.Run: runs the password loop with the capacity check, `Authenticate(Capped(MaxLength), …)`, not the loop as written at src/main.c:281. The two agree whenever every line fits the 256-byte buffer (`Lock.AuthenticateAsWritten`). On a longer line the code as written writes past `password` and hands the whole line to `tl_checkpassword`, while the model hands over its first 255 bytes (`Lock.OverlongLineChecked`); the behaviour after that out-of-bounds write is undefined in C, so the model does not follow it.
- Lock.Authenticate: `tl_checkpassword` receives the buffer as a C string, so a typed NUL byte ends the password early, as in the code.

## Findings

| source | as written | input that shows it | evidently intended | confidence | as-written member | corrected member |
|---|---|---|---|---|---|---|
| src/main.c:96-104 | After a UTF-8 lead byte, `tl_strlen` advances past the trailing bytes without checking them for the terminator | the one-byte string 0xC3 followed in memory by "A" and a NUL: the loop steps over the terminator and answers 2, or reads past the object when nothing follows | a lead byte cut short by the end of the string counts once and the scan stops at the NUL | not executed | Width.TruncatedLeadReadsPastTerminator | Width.Scan |
| src/main.c:195-196 | Every typed byte is stored at `password[password_pos++]` and a NUL after it, with no check against the 256-byte array of src/main.c:216 | 256 letters without enter: the 256th is stored at index 255 and its NUL at index 256, outside the array; with enter, the whole line then reaches `tl_checkpassword` | typed bytes are ignored once 255 are held, leaving room for the terminator | not executed | Password.OverflowingInput | Password.GetPassword |

=== FILE: bytes.dfy ===
/** Bytes and C strings as the lock program sees them: a `char` is one byte and
    a string is everything before the first NUL byte. */
module Bytes {

  newtype byte = b: int | 0 <= b < 256

  const NUL: byte := 0x00
  const BS: byte := 0x08
  const LF: byte := 0x0A
  const ESC: byte := 0x1B
  const DEL: byte := 0x7F

  /** `isalpha` in the C locale: the ASCII letters. */
  predicate IsAlpha(b: byte) {
    (0x41 <= b <= 0x5A) || (0x61 <= b <= 0x7A)
  }

  /** The content of a C string never holds its own terminator. */
  predicate NoNul(s: seq<byte>) {
    forall i | 0 <= i < |s| :: s[i] != NUL
  }

  /** A C string as the system hands it over: its bytes up to, not including,
      the terminator. */
  type CStr = s: seq<byte> | NoNul(s)

  /** The C string stored at the start of `s`: the bytes before the first NUL
      (all of `s` when there is none). */
  function CString(s: seq<byte>): (c: seq<byte>)
    ensures NoNul(c)
    ensures c <= s
    ensures |c| < |s| ==> s[|c|] == NUL
    decreases |s|
  {
    if |s| == 0 || s[0] == NUL then [] else [s[0]] + CString(s[1..])
  }

  /** A string that holds no NUL is its own C string. */
  lemma CStringOfNoNul(s: seq<byte>)
    requires NoNul(s)
    ensures CString(s) == s
  {
  }

  /** `n` copies of `s`, one after another. */
  function Repeat<T>(s: seq<T>, n: nat): (r: seq<T>)
    ensures |r| == n * |s|
    decreases n
  {
    if n == 0 then [] else s + Repeat(s, n - 1)
  }

  /** The `k`-th run of `w` elements of `r`, counting from 0. */
  function Block<T>(r: seq<T>, w: nat, k: nat): seq<T>
    requires (k + 1) * w <= |r|
  {
    r[k * w .. (k + 1) * w]
  }

  /** `r` consists of `n` back-to-back copies of `s`: it is `n` times as long,
      and its `k`-th block of `|s|` elements is `s`. */
  predicate Copies<T(==)>(r: seq<T>, s: seq<T>, n: nat) {
    && |r| == n * |s|
    && forall k | 0 <= k < n :: (k + 1) * |s| <= |r| && Block(r, |s|, k) == s
  }

  /** The `k`-th block of `Repeat(s, n)` is `s`. */
  lemma {:induction false} RepeatBlock<T>(s: seq<T>, n: nat, k: nat)
    requires k < n
    ensures (k + 1) * |s| <= |Repeat(s, n)|
    ensures Block(Repeat(s, n), |s|, k) == s
    decreases n
  {
    var l := |s|;
    var tail := Repeat(s, n - 1);
    assert Repeat(s, n) == s + tail;
    if k == 0 {
      assert (k + 1) * l == l;
    } else {
      RepeatBlock(s, n - 1, k - 1);
      assert k * l == l + (k - 1) * l;
      assert (k + 1) * l == l + k * l;
      assert (s + tail)[k * l .. (k + 1) * l] == tail[(k - 1) * l .. k * l];
    }
  }

  /** `Repeat(s, n)` is `n` copies of `s`. */
  lemma RepeatCopies<T>(s: seq<T>, n: nat)
    ensures Copies(Repeat(s, n), s, n)
  {
    forall k | 0 <= k < n
      ensures (k + 1) * |s| <= |Repeat(s, n)| && Block(Repeat(s, n), |s|, k) == s
    {
      RepeatBlock(s, n, k);
    }
  }

  /** Conversely, `n` copies of `s` can only be `Repeat(s, n)`. */
  lemma {:induction false} CopiesAreRepeat<T>(r: seq<T>, s: seq<T>, n: nat)
    requires Copies(r, s, n)
    ensures r == Repeat(s, n)
    decreases n
  {
    var l := |s|;
    if n > 0 {
      assert Block(r, l, 0) == s;
      var rest := r[l..];
      assert |rest| == (n - 1) * l;
      forall k | 0 <= k < n - 1
        ensures (k + 1) * l <= |rest| && Block(rest, l, k) == s
      {
        assert Block(r, l, k + 1) == s;
        assert (k + 1) * l + l == (k + 2) * l;
        assert k * l + l == (k + 1) * l;
        assert rest[k * l .. (k + 1) * l] == r[(k + 1) * l .. (k + 2) * l];
      }
      CopiesAreRepeat(rest, s, n - 1);
      assert r == s + rest;
    }
  }
}

=== FILE: lock.dfy ===
/** The lock program's `main`: the privilege-bracketed credential lookup at
    startup, configuration from the environment, the centred greeting, and the
    prompt-and-check loop. Library and system calls are oracle results given as
    parameters. */
module Lock {
  import opened Wrappers
  import opened Bytes
  import opened Width
  import opened Password

  /** The fields of a passwd entry that the program reads. */
  datatype Account = Account(uid: int, name: CStr)

  /** The process's real and effective user ids. */
  datatype Ids = Ids(ruid: int, euid: int)

  const Superuser: int := 0

  /** What the external calls answer: the passwd lookup by uid, whether
      `setreuid(0, 0)` succeeds, the shadow lookup by login name (the stored
      hash), and whether `setreuid(uid, uid)` succeeds. */
  datatype Oracles = Oracles(
    account: Option<Account>,
    escalates: bool,
    shadow: Option<seq<byte>>,
    restores: bool)

  /** The external calls of the startup sequence, in the order made. */
  datatype Call = LookupAccount | Escalate | LookupShadow | Restore | SetupTerminal

  /** How startup ends: a fatal exit code, or ready to lock the terminal with
      the account and its stored hash. */
  datatype Status = Fatal(code: int) | Ready(account: Account, hash: seq<byte>)

  datatype Boot = Boot(status: Status, ids: Ids, calls: seq<Call>)

  /** The ids after one call, as the system applies it: a successful
      escalation makes both ids the superuser's, a successful restore makes
      both the caller's, a failed one leaves them alone. */
  function Apply(ids: Ids, uid: int, o: Oracles, call: Call): Ids {
    match call
    case Escalate => if o.escalates then Ids(Superuser, Superuser) else ids
    case Restore => if o.restores then Ids(uid, uid) else ids
    case _ => ids
  }

  function Replay(ids: Ids, uid: int, o: Oracles, calls: seq<Call>): Ids
    decreases |calls|
  {
    if |calls| == 0 then ids else Replay(Apply(ids, uid, o, calls[0]), uid, o, calls[1..])
  }

  /** The startup sequence of `main`, from the ids the process starts with
      (its real uid is the caller's uid; the effective one may already be the
      superuser's for a set-uid binary). */
  function Startup(start: Ids, o: Oracles): (b: Boot)
    ensures b.status == Fatal(1) <==> o.account.None?
    ensures b.status == Fatal(3) <==> o.account.Some? && !o.escalates
    ensures b.status == Fatal(2) <==> o.account.Some? && o.escalates && o.shadow.None?
    ensures b.status == Fatal(4) <==> o.account.Some? && o.escalates && o.shadow.Some? && !o.restores
    ensures b.status.Ready? <==> o.account.Some? && o.escalates && o.shadow.Some? && o.restores
    ensures b.status.Ready? ==> b.status.account == o.account.value && b.status.hash == o.shadow.value
    ensures SetupTerminal in b.calls <==> b.status.Ready?
    ensures |b.calls| > 0 && b.calls[0] == LookupAccount
    ensures b.ids == Replay(start, start.ruid, o, b.calls)
  {
    var uid := start.ruid;
    if o.account.None? then
      Boot(Fatal(1), start, [LookupAccount])
    else if !o.escalates then
      Boot(Fatal(3), start, [LookupAccount, Escalate])
    else if o.shadow.None? then
      Boot(Fatal(2), Ids(Superuser, Superuser), [LookupAccount, Escalate, LookupShadow])
    else if !o.restores then
      Boot(Fatal(4), Ids(Superuser, Superuser), [LookupAccount, Escalate, LookupShadow, Restore])
    else
      Boot(Ready(o.account.value, o.shadow.value), Ids(uid, uid),
           [LookupAccount, Escalate, LookupShadow, Restore, SetupTerminal])
  }

  /** Privilege at exit: a failed passwd lookup or escalation leaves the ids
      as they started; a failed shadow lookup exits with the superuser's ids,
      since that path has no restore; a failed restore leaves them the
      superuser's as well; on success both ids end as the caller's
      (`IdsAtSetup` places that before the terminal is touched). */
  lemma StartupPrivilege(start: Ids, o: Oracles)
    ensures var b := Startup(start, o);
      && (b.status == Fatal(1) || b.status == Fatal(3) ==> b.ids == start)
      && (b.status == Fatal(2) || b.status == Fatal(4) ==> b.ids == Ids(Superuser, Superuser))
      && (b.status.Ready? ==> b.ids == Ids(start.ruid, start.ruid))
  {
  }

  /** The terminal is set up only once startup succeeded, exactly once, as the
      last call, and by then both ids are already the caller's again: nothing
      reaches the terminal while the process holds the superuser's ids. */
  lemma IdsAtSetup(start: Ids, o: Oracles)
    ensures var b := Startup(start, o);
      && (SetupTerminal in b.calls ==> b.status.Ready?)
      && (b.status.Ready? ==>
            && b.calls[|b.calls| - 1] == SetupTerminal
            && SetupTerminal !in b.calls[..|b.calls| - 1]
            && Replay(start, start.ruid, o, b.calls[..|b.calls| - 1]) == Ids(start.ruid, start.ruid))
  {
    var b := Startup(start, o);
    if b.status.Ready? {
      var uid := start.ruid;
      var before := [LookupAccount, Escalate, LookupShadow, Restore];
      assert b.calls[..|b.calls| - 1] == before;
      assert Replay(Ids(uid, uid), uid, o, before[4..]) == Ids(uid, uid);
      assert Replay(Ids(Superuser, Superuser), uid, o, before[3..]) == Ids(uid, uid);
      assert Replay(Ids(Superuser, Superuser), uid, o, before[2..]) == Ids(uid, uid);
      assert Replay(Ids(Superuser, Superuser), uid, o, before[1..]) == Ids(uid, uid);
    }
  }

  /** The bracket around the shadow lookup: the passwd lookup comes before any
      change of ids, the shadow store is read only after a successful
      escalation, and a restore follows the lookup exactly when the lookup
      succeeded. */
  lemma StartupBracketing(start: Ids, o: Oracles)
    ensures var b := Startup(start, o);
      && (Escalate in b.calls ==> b.calls[0] == LookupAccount && o.account.Some?)
      && (LookupShadow in b.calls <==> o.account.Some? && o.escalates)
      && (LookupShadow in b.calls ==>
            |b.calls| > 2 && b.calls[2] == LookupShadow
            && Replay(start, start.ruid, o, b.calls[..2]) == Ids(Superuser, Superuser))
      && (Restore in b.calls <==> LookupShadow in b.calls && o.shadow.Some?)
  {
    var b := Startup(start, o);
    if LookupShadow in b.calls {
      var uid := start.ruid;
      assert b.calls[..2] == [LookupAccount, Escalate];
      assert [LookupAccount, Escalate][1..] == [Escalate];
      assert Replay(Ids(Superuser, Superuser), uid, o, [Escalate][1..]) == Ids(Superuser, Superuser);
      assert Replay(start, uid, o, [Escalate]) == Ids(Superuser, Superuser);
    }
  }

  /** `tl_getenv`: the variable's value when it is set and not empty,
      otherwise the default. */
  function GetEnv(variable: Option<CStr>, default: CStr): (r: CStr)
    ensures variable.Some? && |variable.value| > 0 ==> r == variable.value
    ensures variable.None? || variable.value == [] ==> r == default
    ensures |r| == 0 ==> |default| == 0
  {
    if variable.Some? && |variable.value| > 0 then variable.value else default
  }

  /** The mask unit used when `TL_PASS_CHAR` is unset or empty: " *". */
  const DefaultPassChar: CStr := [0x20, 0x2A]

  /** The values of `TL_USERNAME` and `TL_PASS_CHAR`. */
  datatype Env = Env(username: Option<CStr>, passChar: Option<CStr>)

  /** Terminal geometry as reported once at startup. */
  datatype Screen = Screen(columns: int, rows: nat)

  /** The greeting: the display name, centred one row above the middle. */
  function Greeting(name: seq<byte>, screen: Screen): (f: Frame)
    ensures f.mask == name
    ensures 2 * f.column >= screen.columns - Strlen(name)
    ensures 2 * f.column <= screen.columns - Strlen(name) + 1
    ensures f.row == screen.rows / 2 - 1
  {
    Frame(HMiddle(screen.columns, Strlen(name)), screen.rows / 2 - 1, name)
  }


  /** How the prompt-and-check loop stands after the input available: unlocked
      at some attempt, or still waiting, with the number of passwords checked
      so far. */
  datatype Unlock = Unlocked(attempts: nat) | Waiting(attempts: nat)

  function Next(u: Unlock): Unlock {
    match u
    case Unlocked(n) => Unlocked(n + 1)
    case Waiting(n) => Waiting(n + 1)
  }

  /** The number of newlines in the input. */
  function Lines(keys: seq<byte>): nat
    decreases |keys|
  {
    if |keys| == 0 then 0 else (if keys[0] == LF then 1 else 0) + Lines(keys[1..])
  }

  /** Input without a newline holds no line. */
  lemma {:induction false} NoLines(keys: seq<byte>)
    requires LF !in keys
    ensures Lines(keys) == 0
    decreases |keys|
  {
    if |keys| > 0 {
      assert keys == [keys[0]] + keys[1..];
      NoLines(keys[1..]);
    }
  }

  /** Reading up to and including the first newline uses up exactly one line
      of the input. */
  lemma {:induction false} LinesAfterLine(keys: seq<byte>, n: nat)
    requires 0 < n <= |keys| && keys[n - 1] == LF
    requires forall i | 0 <= i < n - 1 && i < |keys| :: keys[i] != LF
    ensures Lines(keys) == 1 + Lines(keys[n..])
    decreases n
  {
    if n > 1 {
      assert keys[0] != LF;
      LinesAfterLine(keys[1..], n - 1);
      assert keys[1..][n - 1..] == keys[n..];
    }
  }

  /** The prompt-and-check loop of `main`: prompt, hand the password to
      `tl_checkpassword` together with the stored hash, repeat until one is
      accepted. Each attempt starts with an empty buffer, and the check sees
      the buffer as the C string it is (up to its first NUL). `matches`
      stands for hashing the candidate with `crypt` and comparing the result
      with the stored hash. The prompt runs under `policy`: `Unbounded` is
      the loop as written, `Capped(MaxLength)` the one with the capacity
      check. */
  function Authenticate(policy: Policy, keys: seq<byte>, hash: seq<byte>, matches: (seq<byte>, seq<byte>) -> bool): (u: Unlock)
    ensures u.attempts <= Lines(keys)
    ensures u.Waiting? ==> u.attempts == Lines(keys)
    ensures u.Unlocked? ==> u.attempts >= 1
    decreases |keys|
  {
    var c := Prompt(policy, keys);
    if c.entered then
      LinesAfterLine(keys, c.consumed);
      if matches(CString(c.editor.buffer), hash) then Unlocked(1)
      else Next(Authenticate(policy, keys[c.consumed..], hash, matches))
    else
      NoLines(keys);
      Waiting(0)
  }

  /** The passwords the loop hands to the check, one per line of the input,
      in order, whether or not an earlier one was accepted. */
  function Candidates(policy: Policy, keys: seq<byte>): (cs: seq<seq<byte>>)
    ensures |cs| == Lines(keys)
    ensures forall i | 0 <= i < |cs| :: NoNul(cs[i])
    ensures policy.Capped? ==> forall i | 0 <= i < |cs| :: |cs[i]| <= policy.limit
    decreases |keys|
  {
    var c := Prompt(policy, keys);
    if c.entered then
      LinesAfterLine(keys, c.consumed);
      [CString(c.editor.buffer)] + Candidates(policy, keys[c.consumed..])
    else
      NoLines(keys);
      []
  }

  /** How the loop's outcome `u` relates to the candidates `cs` it was given:
      it checked no more of them than there are, rejected every one before its
      last check, accepted the last one it checked when it unlocked, and
      rejected all of them when it is still waiting. */
  predicate CheckedInOrder(cs: seq<seq<byte>>, u: Unlock, hash: seq<byte>, matches: (seq<byte>, seq<byte>) -> bool) {
    && u.attempts <= |cs|
    && (forall i | 0 <= i < u.attempts - 1 && i < |cs| :: !matches(cs[i], hash))
    && (u.Unlocked? ==> 0 < u.attempts <= |cs| && matches(cs[u.attempts - 1], hash))
    && (u.Waiting? ==> forall i | 0 <= i < |cs| :: !matches(cs[i], hash))
  }

  /** A rejected candidate in front keeps the order: one more attempt. */
  lemma RejectedFirst(x: seq<byte>, cs: seq<seq<byte>>, u: Unlock, hash: seq<byte>, matches: (seq<byte>, seq<byte>) -> bool)
    requires !matches(x, hash)
    requires CheckedInOrder(cs, u, hash, matches)
    ensures CheckedInOrder([x] + cs, Next(u), hash, matches)
  {
    var xs := [x] + cs;
    forall i | 1 <= i < |xs| ensures xs[i] == cs[i - 1] { }
  }

  /** The loop checks the candidates in order and stops at the first the check
      accepts. */
  lemma {:induction false} AuthenticateChecksInOrder(policy: Policy, keys: seq<byte>, hash: seq<byte>, matches: (seq<byte>, seq<byte>) -> bool)
    ensures CheckedInOrder(Candidates(policy, keys), Authenticate(policy, keys, hash, matches), hash, matches)
    decreases |keys|
  {
    var c := Prompt(policy, keys);
    if c.entered && !matches(CString(c.editor.buffer), hash) {
      var rest := keys[c.consumed..];
      AuthenticateChecksInOrder(policy, rest, hash, matches);
      RejectedFirst(CString(c.editor.buffer), Candidates(policy, rest), Authenticate(policy, rest, hash, matches), hash, matches);
    }
  }

  /** Some candidate is a password the check accepts against `hash`. */
  predicate SomeAccepted(cs: seq<seq<byte>>, hash: seq<byte>, matches: (seq<byte>, seq<byte>) -> bool) {
    exists i | 0 <= i < |cs| :: matches(cs[i], hash)
  }

  /** The loop unlocks exactly when some line typed so far is a password the
      check accepts against the stored hash. */
  lemma UnlocksIffAccepted(policy: Policy, keys: seq<byte>, hash: seq<byte>, matches: (seq<byte>, seq<byte>) -> bool)
    ensures Authenticate(policy, keys, hash, matches).Unlocked? <==> SomeAccepted(Candidates(policy, keys), hash, matches)
  {
    AuthenticateChecksInOrder(policy, keys, hash, matches);
    var u := Authenticate(policy, keys, hash, matches);
    var cs := Candidates(policy, keys);
    if u.Unlocked? {
      assert matches(cs[u.attempts - 1], hash);
    }
  }

  /** Every line of the input stays within the 256-byte buffer under the loop
      as written. */
  predicate LinesFit(keys: seq<byte>)
    decreases |keys|
  {
    Peak(Start, keys) <= MaxLength
    && (var c := Prompt(Unbounded, keys); c.entered ==> LinesFit(keys[c.consumed..]))
  }

  /** On input whose lines all fit the buffer, the loop with the capacity
      check is the loop as written. */
  lemma {:induction false} AuthenticateAsWritten(keys: seq<byte>, hash: seq<byte>, matches: (seq<byte>, seq<byte>) -> bool)
    requires LinesFit(keys)
    ensures Authenticate(Capped(MaxLength), keys, hash, matches) == Authenticate(Unbounded, keys, hash, matches)
    decreases |keys|
  {
    PromptCappedAgrees(MaxLength, keys);
    var c := Prompt(Unbounded, keys);
    if c.entered {
      AuthenticateAsWritten(keys[c.consumed..], hash, matches);
    }
  }

  /** A line of more than 255 typed bytes reaches the password check whole
      under the loop as written, after its terminator write has left the
      256-byte array, and cut to its first 255 bytes under the loop with the
      capacity check. */
  lemma {:induction false} OverlongLineChecked(xs: seq<byte>, rest: seq<byte>)
    requires forall i | 0 <= i < |xs| :: Typed(xs[i]) && xs[i] != NUL
    requires |xs| > MaxLength
    ensures var asWritten := Candidates(Unbounded, xs + [LF] + rest);
      |asWritten| > 0 && asWritten[0] == xs
    ensures var capped := Candidates(Capped(MaxLength), xs + [LF] + rest);
      |capped| > 0 && capped[0] == xs[..MaxLength]
  {
    assert LF !in xs by {
      forall i | 0 <= i < |xs| ensures xs[i] != LF { assert Typed(xs[i]); }
    }
    EnterEnds(Unbounded, xs, rest);
    EnterEnds(Capped(MaxLength), xs, rest);
    OverflowingInput(xs);
    CStringOfNoNul(xs);
    CappedFill(xs, MaxLength);
    CStringOfNoNul(xs[..MaxLength]);
  }

  /** A rejected attempt leaves nothing behind: what follows is checked as if
      it were the whole input. */
  lemma {:induction false} FailedAttemptForgotten(policy: Policy, p: seq<byte>, rest: seq<byte>, hash: seq<byte>, matches: (seq<byte>, seq<byte>) -> bool)
    requires LF !in p
    requires !matches(CString(Feed(policy, Start, p).buffer), hash)
    ensures Authenticate(policy, p + [LF] + rest, hash, matches) == Next(Authenticate(policy, rest, hash, matches))
  {
    EnterEnds(policy, p, rest);
    assert (p + [LF] + rest)[|p| + 1..] == rest;
  }

  /** An attempt whose text the password check accepts unlocks at once. */
  lemma {:induction false} AcceptedAttemptUnlocks(policy: Policy, p: seq<byte>, rest: seq<byte>, hash: seq<byte>, matches: (seq<byte>, seq<byte>) -> bool)
    requires LF !in p
    requires matches(CString(Feed(policy, Start, p).buffer), hash)
    ensures Authenticate(policy, p + [LF] + rest, hash, matches) == Unlocked(1)
  {
    EnterEnds(policy, p, rest);
  }

  /** A password typed without erases and without NUL bytes, and short enough
      for the buffer, reaches the password check as typed. */
  lemma {:induction false} TypedPasswordChecked(policy: Policy, p: seq<byte>)
    requires forall i | 0 <= i < |p| :: Typed(p[i]) && p[i] != NUL
    requires policy.Capped? ==> |p| <= policy.limit
    ensures LF !in p
    ensures CString(Feed(policy, Start, p).buffer) == p
  {
    assert LF !in p by {
      forall i | 0 <= i < |p| ensures p[i] != LF { assert Typed(p[i]); }
    }
    TypingAppends(policy, Start, p);
    assert [] + p == p;
    CStringOfNoNul(p);
  }

  /** A wrong password and then the right one, each ended by enter: the first
      is rejected, the second unlocks, after exactly two checks. */
  lemma {:induction false} WrongThenRight(policy: Policy, wrong: seq<byte>, right: seq<byte>, rest: seq<byte>, hash: seq<byte>, matches: (seq<byte>, seq<byte>) -> bool)
    requires forall i | 0 <= i < |wrong| :: Typed(wrong[i]) && wrong[i] != NUL
    requires forall i | 0 <= i < |right| :: Typed(right[i]) && right[i] != NUL
    requires policy.Capped? ==> |wrong| <= policy.limit && |right| <= policy.limit
    requires !matches(wrong, hash) && matches(right, hash)
    ensures Authenticate(policy, wrong + [LF] + right + [LF] + rest, hash, matches) == Unlocked(2)
  {
    var later := right + [LF] + rest;
    TypedPasswordChecked(policy, wrong);
    assert !matches(CString(Feed(policy, Start, wrong).buffer), hash);
    TypedPasswordChecked(policy, right);
    assert matches(CString(Feed(policy, Start, right).buffer), hash);
    assert wrong + [LF] + right + [LF] + rest == wrong + [LF] + later;
    FailedAttemptForgotten(policy, wrong, later, hash, matches);
    AcceptedAttemptUnlocks(policy, right, rest, hash, matches);
  }

  /** With a check that accepts exactly the stored entry "correct", typing
      "wrong", enter, "correct", enter unlocks on the second check. */
  lemma WrongThenCorrectExample()
    ensures var wrong: seq<byte> := [0x77, 0x72, 0x6F, 0x6E, 0x67];
      var correct: seq<byte> := [0x63, 0x6F, 0x72, 0x72, 0x65, 0x63, 0x74];
      Authenticate(Capped(MaxLength), wrong + [LF] + correct + [LF], correct, (p, h) => p == h) == Unlocked(2)
  {
    var wrong: seq<byte> := [0x77, 0x72, 0x6F, 0x6E, 0x67];
    var correct: seq<byte> := [0x63, 0x6F, 0x72, 0x72, 0x65, 0x63, 0x74];
    WrongThenRight(Capped(MaxLength), wrong, correct, [], correct, (p, h) => p == h);
    assert wrong + [LF] + correct + [LF] + [] == wrong + [LF] + correct + [LF];
  }

  /** The whole run of the program over the input available: the startup
      outcome, and, once startup succeeded, the greeting drawn, the mask unit
      read from the environment, and the outcome of the password loop. */
  datatype Session = Session(
    boot: Boot,
    greeting: Option<Frame>,
    passChar: Option<CStr>,
    unlock: Option<Unlock>)

  /** `main` from start to exit. The password loop runs with the capacity
      check, and checks against the hash read from the shadow entry. */
  function Run(start: Ids, o: Oracles, env: Env, screen: Screen, keys: seq<byte>, matches: (seq<byte>, seq<byte>) -> bool): (s: Session)
    ensures s.boot == Startup(start, o)
    ensures s.greeting.Some? <==> s.boot.status.Ready?
    ensures s.unlock.Some? <==> s.boot.status.Ready?
    ensures s.boot.status.Ready? ==> s.greeting.value.mask == GetEnv(env.username, s.boot.status.account.name)
    ensures s.passChar.Some? <==> s.boot.status.Ready?
    ensures s.boot.status.Ready? ==> s.passChar.value == GetEnv(env.passChar, DefaultPassChar)
    ensures s.passChar.Some? ==> |s.passChar.value| > 0
  {
    var boot := Startup(start, o);
    match boot.status
    case Fatal(_) => Session(boot, None, None, None)
    case Ready(account, hash) =>
      var name := GetEnv(env.username, account.name);
      var passChar := GetEnv(env.passChar, DefaultPassChar);
      Session(boot, Some(Greeting(name, screen)), Some(passChar), Some(Authenticate(Capped(MaxLength), keys, hash, matches)))
  }

  /** The process's exit code, or `None` while it still waits for input. */
  function ExitCode(s: Session): (r: Option<int>)
    ensures r.Some? && r.value != 0 ==> s.boot.status == Fatal(r.value)
    ensures s.boot.status.Ready? ==> (r == Some(0) <==> s.unlock.Some? && s.unlock.value.Unlocked?)
    ensures r.None? ==> s.boot.status.Ready?
  {
    match s.boot.status
    case Fatal(code) => Some(code)
    case Ready(_, _) => if s.unlock.Some? && s.unlock.value.Unlocked? then Some(0) else None
  }

  /** Exit codes: 1 when the passwd entry is missing, 3 when escalation fails,
      2 when the shadow entry is missing, 4 when the restore fails, none of
      them with the terminal set up; 0 exactly when startup succeeded and some
      line typed is a password the check accepts against the stored shadow
      hash, and then with both ids the caller's. */
  lemma ExitCodes(start: Ids, o: Oracles, env: Env, screen: Screen, keys: seq<byte>, matches: (seq<byte>, seq<byte>) -> bool)
    ensures var s := Run(start, o, env, screen, keys, matches);
      var cs := Candidates(Capped(MaxLength), keys);
      && (ExitCode(s) == Some(1) <==> o.account.None?)
      && (ExitCode(s) == Some(3) <==> o.account.Some? && !o.escalates)
      && (ExitCode(s) == Some(2) <==> o.account.Some? && o.escalates && o.shadow.None?)
      && (ExitCode(s) == Some(4) <==> o.account.Some? && o.escalates && o.shadow.Some? && !o.restores)
      && (ExitCode(s).Some? && ExitCode(s) != Some(0) ==> SetupTerminal !in s.boot.calls && s.greeting.None?)
      && (ExitCode(s) == Some(0) <==>
            o.account.Some? && o.escalates && o.shadow.Some? && o.restores
            && SomeAccepted(cs, o.shadow.value, matches))
      && (ExitCode(s) == Some(0) ==> s.boot.ids == Ids(start.ruid, start.ruid))
  {
    StartupPrivilege(start, o);
    if o.shadow.Some? {
      UnlocksIffAccepted(Capped(MaxLength), keys, o.shadow.value, matches);
    }
  }
}

=== FILE: password.dfy ===
/** The masked password prompt: the keystroke loop of `tl_getpassword` over a
    finite sequence of input bytes, the redraws it triggers, and the mask frame
    `tl_showpassword` draws for each of them. */
module Password {
  import opened Bytes
  import opened Width

  /** Size of the `password` array that `main` hands to the prompt. */
  const BufferSize: nat := 256

  /** Longest password that leaves room for its terminator in the array. */
  const MaxLength: nat := BufferSize - 1

  /** Backspace and delete both remove the last character. */
  predicate IsErase(c: byte) {
    c == DEL || c == BS
  }

  /** A byte that the loop appends to the buffer. */
  predicate Typed(c: byte) {
    c != LF && !IsErase(c)
  }

  /** The prompt's state: the bytes typed so far and, in order, the mask count
      of every redraw performed since the prompt started. */
  datatype Editor = Editor(buffer: seq<byte>, redraws: seq<nat>)

  /** On entry the buffer is empty and one empty mask has been drawn. */
  const Start: Editor := Editor([], [0])

  /** What happens to a typed byte when the buffer is full. `Unbounded` is the
      loop as written: it appends without looking at the array's size.
      `Capped(n)` ignores typed bytes once `n` are buffered, while erase and
      newline keep working. */
  datatype Policy = Unbounded | Capped(limit: nat)

  /** A redraw trace agrees with its buffer: it starts from 0, every redraw
      differs from the one before by exactly one character, the last one shows
      the current length, and the buffer holds only typed bytes. */
  predicate Consistent(e: Editor) {
    && |e.redraws| > 0
    && e.redraws[0] == 0
    && e.redraws[|e.redraws| - 1] == |e.buffer|
    && (forall i | 1 <= i < |e.redraws| :: e.redraws[i] == e.redraws[i - 1] + 1 || e.redraws[i] + 1 == e.redraws[i - 1])
    && (forall i | 0 <= i < |e.buffer| :: Typed(e.buffer[i]))
  }

  /** One keystroke other than newline. */
  function Key(policy: Policy, e: Editor, c: byte): (r: Editor)
    requires c != LF
    ensures r.buffer != e.buffer ==> r.redraws == e.redraws + [|r.buffer|]
    ensures r.buffer == e.buffer ==> r == e
    ensures IsErase(c) ==> r.buffer <= e.buffer && |r.buffer| == if |e.buffer| == 0 then 0 else |e.buffer| - 1
    ensures Typed(c) && policy.Unbounded? ==> r.buffer == e.buffer + [c]
    ensures Typed(c) && policy.Capped? ==>
      r.buffer == if |e.buffer| < policy.limit then e.buffer + [c] else e.buffer
  {
    if IsErase(c) then
      if |e.buffer| > 0 then Editor(e.buffer[..|e.buffer| - 1], e.redraws + [|e.buffer| - 1]) else e
    else if policy.Capped? && |e.buffer| >= policy.limit then e
    else Editor(e.buffer + [c], e.redraws + [|e.buffer| + 1])
  }

  /** The keystrokes up to, not including, the first newline, applied in
      order. */
  function Feed(policy: Policy, e: Editor, keys: seq<byte>): (r: Editor)
    ensures policy.Capped? && |e.buffer| <= policy.limit ==> |r.buffer| <= policy.limit
    decreases |keys|
  {
    if |keys| == 0 || keys[0] == LF then e else Feed(policy, Key(policy, e, keys[0]), keys[1..])
  }

  /** Redraws are only ever added: the trace is a log of what was drawn. */
  lemma {:induction false} FeedExtendsTrace(policy: Policy, e: Editor, keys: seq<byte>)
    ensures e.redraws <= Feed(policy, e, keys).redraws
    decreases |keys|
  {
    if |keys| > 0 && keys[0] != LF {
      FeedExtendsTrace(policy, Key(policy, e, keys[0]), keys[1..]);
    }
  }

  /** Every keystroke keeps the redraw trace in step with the buffer. */
  lemma KeyConsistent(policy: Policy, e: Editor, c: byte)
    requires c != LF
    requires Consistent(e)
    ensures Consistent(Key(policy, e, c))
  {
    var r := Key(policy, e, c);
    if r.buffer != e.buffer {
      assert r.redraws == e.redraws + [|r.buffer|];
      forall i | 1 <= i < |r.redraws|
        ensures r.redraws[i] == r.redraws[i - 1] + 1 || r.redraws[i] + 1 == r.redraws[i - 1]
      {
        if i < |e.redraws| {
          assert r.redraws[i] == e.redraws[i] && r.redraws[i - 1] == e.redraws[i - 1];
        }
      }
    }
  }

  lemma {:induction false} FeedConsistent(policy: Policy, e: Editor, keys: seq<byte>)
    requires Consistent(e)
    ensures Consistent(Feed(policy, e, keys))
    decreases |keys|
  {
    if |keys| > 0 && keys[0] != LF {
      KeyConsistent(policy, e, keys[0]);
      FeedConsistent(policy, Key(policy, e, keys[0]), keys[1..]);
    }
  }

  /** The position of the first newline, or the length when there is none. */
  function LineEnd(keys: seq<byte>): (n: nat)
    ensures n <= |keys|
    ensures n < |keys| ==> keys[n] == LF
    ensures forall i | 0 <= i < n && i < |keys| :: keys[i] != LF
    decreases |keys|
  {
    if |keys| == 0 || keys[0] == LF then 0 else 1 + LineEnd(keys[1..])
  }

  /** One run of the prompt over the input available: the resulting state,
      how many input bytes it read, and whether a newline ended it (without
      one the prompt is still waiting for input). */
  datatype Capture = Capture(editor: Editor, consumed: nat, entered: bool)

  function Prompt(policy: Policy, keys: seq<byte>): (c: Capture)
    ensures Consistent(c.editor)
    ensures c.consumed <= |keys|
    ensures c.entered <==> LF in keys
    ensures c.entered ==> 0 < c.consumed <= |keys| && keys[c.consumed - 1] == LF
    ensures forall i | 0 <= i < c.consumed - 1 && i < |keys| :: keys[i] != LF
    ensures !c.entered ==> c.consumed == |keys|
    ensures policy.Capped? ==> |c.editor.buffer| <= policy.limit
  {
    var n := LineEnd(keys);
    FeedConsistent(policy, Start, keys);
    if n < |keys| then
      assert keys[n] in keys;
      Capture(Feed(policy, Start, keys), n + 1, true)
    else
      assert LF !in keys by {
        forall i | 0 <= i < |keys| ensures keys[i] != LF { }
      }
      Capture(Feed(policy, Start, keys), n, false)
  }

  // ---------------------------------------------------------------------------
  // Behaviour of the keystroke loop

  /** Feeding two stretches of input without a newline in the first is feeding
      one after the other. */
  lemma {:induction false} FeedAppend(policy: Policy, e: Editor, xs: seq<byte>, ys: seq<byte>)
    requires LF !in xs
    ensures Feed(policy, e, xs + ys) == Feed(policy, Feed(policy, e, xs), ys)
    decreases |xs|
  {
    if |xs| == 0 {
      assert xs + ys == ys;
    } else {
      assert (xs + ys)[0] == xs[0];
      assert (xs + ys)[1..] == xs[1..] + ys;
      FeedAppend(policy, Key(policy, e, xs[0]), xs[1..], ys);
    }
  }

  /** The counts `from + 1`, ..., `from + n`: the redraws while typing. */
  function Rising(from: nat, n: nat): (r: seq<nat>)
    ensures |r| == n
    ensures forall i | 0 <= i < n :: r[i] == from + 1 + i
    decreases n
  {
    if n == 0 then [] else [from + 1] + Rising(from + 1, n - 1)
  }

  /** The counts `from - 1`, ..., `from - n`: the redraws while erasing. */
  function Falling(from: nat, n: nat): (r: seq<nat>)
    requires n <= from
    ensures |r| == n
    ensures forall i | 0 <= i < n :: r[i] == from - 1 - i
    decreases n
  {
    if n == 0 then [] else [from - 1] + Falling(from - 1, n - 1)
  }

  /** Typing bytes that fit appends each of them and redraws once per byte. */
  lemma {:induction false} TypingAppends(policy: Policy, e: Editor, xs: seq<byte>)
    requires forall i | 0 <= i < |xs| :: Typed(xs[i])
    requires policy.Capped? ==> |e.buffer| + |xs| <= policy.limit
    ensures Feed(policy, e, xs) == Editor(e.buffer + xs, e.redraws + Rising(|e.buffer|, |xs|))
    decreases |xs|
  {
    if |xs| == 0 {
      assert e.buffer + xs == e.buffer;
      assert e.redraws + Rising(|e.buffer|, 0) == e.redraws;
    } else {
      assert Typed(xs[0]);
      var e' := Key(policy, e, xs[0]);
      assert e' == Editor(e.buffer + [xs[0]], e.redraws + [|e.buffer| + 1]);
      TypingAppends(policy, e', xs[1..]);
      assert e.buffer + xs == e'.buffer + xs[1..];
      assert Rising(|e.buffer|, |xs|) == [|e.buffer| + 1] + Rising(|e.buffer| + 1, |xs| - 1);
      assert e.redraws + Rising(|e.buffer|, |xs|) == e'.redraws + Rising(|e'.buffer|, |xs| - 1);
    }
  }

  /** Erasing at most as many characters as are buffered removes them from
      the end and redraws once per erase. */
  lemma {:induction false} ErasingRemoves(policy: Policy, e: Editor, es: seq<byte>)
    requires forall i | 0 <= i < |es| :: IsErase(es[i])
    requires |es| <= |e.buffer|
    ensures Feed(policy, e, es) == Editor(e.buffer[..|e.buffer| - |es|], e.redraws + Falling(|e.buffer|, |es|))
    decreases |es|
  {
    if |es| == 0 {
      assert e.buffer[..|e.buffer|] == e.buffer;
      assert e.redraws + Falling(|e.buffer|, 0) == e.redraws;
    } else {
      var n := |e.buffer|;
      var e' := Key(policy, e, es[0]);
      assert e' == Editor(e.buffer[..n - 1], e.redraws + [n - 1]);
      ErasingRemoves(policy, e', es[1..]);
      assert e'.buffer[..|e'.buffer| - |es[1..]|] == e.buffer[..n - |es|];
      assert Falling(n, |es|) == [n - 1] + Falling(n - 1, |es| - 1);
      assert e.redraws + Falling(n, |es|) == e'.redraws + Falling(n - 1, |es| - 1);
    }
  }

  /** Erasing with nothing buffered changes nothing: no byte removed, no
      redraw. */
  lemma {:induction false} ErasingEmptyIsNoop(policy: Policy, e: Editor, es: seq<byte>)
    requires forall i | 0 <= i < |es| :: IsErase(es[i])
    requires e.buffer == []
    ensures Feed(policy, e, es) == e
    decreases |es|
  {
    if |es| > 0 {
      ErasingEmptyIsNoop(policy, Key(policy, e, es[0]), es[1..]);
    }
  }

  /** Typing `n` bytes and erasing `m <= n` of them leaves the first `n - m`
      typed bytes; the redraw counts run 0, 1, ..., n and then n - 1, ...,
      n - m. */
  lemma {:induction false} TypeThenEraseFeed(policy: Policy, xs: seq<byte>, es: seq<byte>)
    requires forall i | 0 <= i < |xs| :: Typed(xs[i])
    requires forall i | 0 <= i < |es| :: IsErase(es[i])
    requires |es| <= |xs|
    requires policy.Capped? ==> |xs| <= policy.limit
    ensures LF !in xs + es
    ensures Feed(policy, Start, xs + es) == Editor(xs[..|xs| - |es|], [0] + Rising(0, |xs|) + Falling(|xs|, |es|))
  {
    assert LF !in xs by {
      forall i | 0 <= i < |xs| ensures xs[i] != LF { assert Typed(xs[i]); }
    }
    assert LF !in xs + es by {
      forall i | 0 <= i < |xs + es| ensures (xs + es)[i] != LF {
        if i < |xs| { assert Typed(xs[i]); } else { assert IsErase(es[i - |xs|]); }
      }
    }
    FeedAppend(policy, Start, xs, es);
    TypingAppends(policy, Start, xs);
    assert [] + xs == xs;
    ErasingRemoves(policy, Feed(policy, Start, xs), es);
  }

  /** The same followed by enter: the prompt returns there, whatever input
      comes after. */
  lemma {:induction false} TypeThenErase(policy: Policy, xs: seq<byte>, es: seq<byte>, rest: seq<byte>)
    requires forall i | 0 <= i < |xs| :: Typed(xs[i])
    requires forall i | 0 <= i < |es| :: IsErase(es[i])
    requires |es| <= |xs|
    requires policy.Capped? ==> |xs| <= policy.limit
    ensures var c := Prompt(policy, xs + es + [LF] + rest);
      && c.entered
      && c.consumed == |xs| + |es| + 1
      && c.editor.buffer == xs[..|xs| - |es|]
      && c.editor.redraws == [0] + Rising(0, |xs|) + Falling(|xs|, |es|)
  {
    TypeThenEraseFeed(policy, xs, es);
    EnterEnds(policy, xs + es, rest);
  }

  /** Input without a newline followed by one: the prompt reads exactly up to
      and including the newline, and the rest is left for later. */
  lemma {:induction false} EnterEnds(policy: Policy, xs: seq<byte>, rest: seq<byte>)
    requires LF !in xs
    ensures var c := Prompt(policy, xs + [LF] + rest);
      c.entered && c.consumed == |xs| + 1 && c.editor == Feed(policy, Start, xs)
  {
    var keys := xs + [LF] + rest;
    assert keys == xs + ([LF] + rest);
    FeedAppend(policy, Start, xs, [LF] + rest);
    assert keys[|xs|] == LF;
    assert keys[..|xs|] == xs;
    assert LineEnd(keys) == |xs|;
  }

  /** The example of five characters and two erases: the mask is redrawn with
      0, 1, 2, 3, 4, 5, 4 and 3 units. */
  lemma FiveTypedTwoErased()
    ensures Prompt(Unbounded, [0x61, 0x62, 0x63, 0x64, 0x65, DEL, BS, LF]).editor.redraws
      == [0, 1, 2, 3, 4, 5, 4, 3]
  {
    var xs: seq<byte> := [0x61, 0x62, 0x63, 0x64, 0x65];
    var es: seq<byte> := [DEL, BS];
    TypeThenErase(Unbounded, xs, es, []);
    assert xs + es + [LF] + [] == [0x61, 0x62, 0x63, 0x64, 0x65, DEL, BS, LF];
    assert Rising(0, 5) == [1, 2, 3, 4, 5];
    assert Falling(5, 2) == [4, 3];
  }

  // ---------------------------------------------------------------------------
  // The fixed-size buffer

  /** The longest the buffer gets while the loop as written runs over `keys`
      from `e`. */
  function Peak(e: Editor, keys: seq<byte>): (p: nat)
    ensures p >= |e.buffer|
    ensures p >= |Feed(Unbounded, e, keys).buffer|
    decreases |keys|
  {
    if |keys| == 0 || keys[0] == LF then |e.buffer|
    else
      var p := Peak(Key(Unbounded, e, keys[0]), keys[1..]);
      if p < |e.buffer| then |e.buffer| else p
  }

  /** As long as the loop as written never holds more than `limit` bytes, the
      capped loop behaves exactly like it. */
  lemma {:induction false} CappedAgrees(limit: nat, e: Editor, keys: seq<byte>)
    requires Peak(e, keys) <= limit
    ensures Feed(Capped(limit), e, keys) == Feed(Unbounded, e, keys)
    decreases |keys|
  {
    if |keys| > 0 && keys[0] != LF {
      assert Key(Capped(limit), e, keys[0]) == Key(Unbounded, e, keys[0]);
      CappedAgrees(limit, Key(Unbounded, e, keys[0]), keys[1..]);
    }
  }

  /** No prefix of the line takes the buffer of the loop as written beyond
      `Peak`. */
  lemma {:induction false} PeakBounds(e: Editor, keys: seq<byte>, j: nat)
    requires j <= LineEnd(keys)
    ensures |Feed(Unbounded, e, keys[..j]).buffer| <= Peak(e, keys)
    decreases j
  {
    if j > 0 {
      assert keys[..j][1..] == keys[1..][..j - 1];
      PeakBounds(Key(Unbounded, e, keys[0]), keys[1..], j - 1);
    }
  }

  /** Some prefix of the line takes the buffer of the loop as written to
      exactly `Peak`. */
  lemma {:induction false} PeakReached(e: Editor, keys: seq<byte>)
    ensures exists j | 0 <= j <= LineEnd(keys) :: |Feed(Unbounded, e, keys[..j]).buffer| == Peak(e, keys)
    decreases |keys|
  {
    assert keys[..0] == [];
    if |keys| > 0 && keys[0] != LF {
      var next := Key(Unbounded, e, keys[0]);
      if Peak(next, keys[1..]) >= |e.buffer| {
        PeakReached(next, keys[1..]);
        var j :| 0 <= j <= LineEnd(keys[1..]) && |Feed(Unbounded, next, keys[1..][..j]).buffer| == Peak(next, keys[1..]);
        assert keys[..j + 1][1..] == keys[1..][..j];
        assert |Feed(Unbounded, e, keys[..j + 1]).buffer| == Peak(e, keys);
      } else {
        assert |Feed(Unbounded, e, keys[..0]).buffer| == Peak(e, keys);
      }
    } else {
      assert |Feed(Unbounded, e, keys[..0]).buffer| == Peak(e, keys);
    }
  }

  /** Under the same bound the capped prompt is the prompt as written. */
  lemma PromptCappedAgrees(limit: nat, keys: seq<byte>)
    requires Peak(Start, keys) <= limit
    ensures Prompt(Capped(limit), keys) == Prompt(Unbounded, keys)
  {
    CappedAgrees(limit, Start, keys);
  }

  /** More than 255 typed bytes before the newline (256 of them, say): the
      loop as written reaches that length, so its terminator write lands at
      `password[256]` or beyond, outside the 256-byte array. */
  lemma {:induction false} OverflowingInput(xs: seq<byte>)
    requires forall i | 0 <= i < |xs| :: Typed(xs[i])
    requires |xs| > MaxLength
    ensures Peak(Start, xs) == |xs| > MaxLength
    ensures Feed(Unbounded, Start, xs).buffer == xs
  {
    PeakTyped(Start, xs);
    TypingAppends(Unbounded, Start, xs);
  }

  /** The same input under the capacity check: the first 255 bytes are kept
      and the rest ignored. */
  lemma {:induction false} OverflowingInputCapped(xs: seq<byte>)
    requires forall i | 0 <= i < |xs| :: Typed(xs[i])
    requires |xs| > MaxLength
    ensures Prompt(Capped(MaxLength), xs).editor.buffer == xs[..MaxLength]
  {
    CappedFill(xs, MaxLength);
  }

  /** Typing with room for `m` bytes keeps the first `m`. */
  lemma {:induction false} CappedFill(xs: seq<byte>, m: nat)
    requires forall i | 0 <= i < |xs| :: Typed(xs[i])
    requires m <= |xs|
    ensures Feed(Capped(m), Start, xs).buffer == xs[..m]
  {
    var ys, zs := xs[..m], xs[m..];
    TypedSplit(xs, m);
    FeedAppend(Capped(m), Start, ys, zs);
    TypingAppends(Capped(m), Start, ys);
    var full := Feed(Capped(m), Start, ys);
    assert full.buffer == ys;
    FullIgnoresTyping(m, full, zs);
  }

  lemma TypedSplit(xs: seq<byte>, m: nat)
    requires forall i | 0 <= i < |xs| :: Typed(xs[i])
    requires m <= |xs|
    ensures xs == xs[..m] + xs[m..]
    ensures forall i | 0 <= i < m :: Typed(xs[..m][i])
    ensures forall i | 0 <= i < |xs| - m :: Typed(xs[m..][i])
    ensures LF !in xs[..m]
  {
    assert xs == xs[..m] + xs[m..];
    forall i | 0 <= i < m ensures xs[..m][i] != LF {
      assert Typed(xs[i]);
    }
  }

  /** With the buffer full, the capped loop ignores typed bytes. */
  lemma {:induction false} FullIgnoresTyping(limit: nat, e: Editor, xs: seq<byte>)
    requires |e.buffer| >= limit
    requires forall i | 0 <= i < |xs| :: Typed(xs[i])
    ensures Feed(Capped(limit), e, xs) == e
    decreases |xs|
  {
    if |xs| > 0 {
      assert Typed(xs[0]);
      FullIgnoresTyping(limit, e, xs[1..]);
    }
  }

  /** Without a newline and without erases, the peak is the final length. */
  lemma {:induction false} PeakTyped(e: Editor, xs: seq<byte>)
    requires forall i | 0 <= i < |xs| :: Typed(xs[i])
    ensures Peak(e, xs) == |e.buffer| + |xs|
    decreases |xs|
  {
    if |xs| > 0 {
      assert Typed(xs[0]);
      PeakTyped(Key(Unbounded, e, xs[0]), xs[1..]);
    }
  }

  /** One step of the loop: a byte other than newline is handled by `Key`. */
  lemma FeedStep(policy: Policy, e: Editor, keys: seq<byte>, i: nat)
    requires i < |keys| && keys[i] != LF
    ensures Feed(policy, e, keys[i..]) == Feed(policy, Key(policy, e, keys[i]), keys[i + 1..])
    ensures Peak(e, keys[i..]) >= Peak(Key(Unbounded, e, keys[i]), keys[i + 1..])
  {
    assert keys[i..][1..] == keys[i + 1..];
  }

  /** One keystroke on the array: the C string of length `pos` in `buf` and
      the redraws so far become the state `Key` describes, and the array
      again holds that string with its terminator. The caller guarantees that
      the new string and its terminator fit the array. */
  method Keystroke(policy: Policy, buf: array<byte>, pos: nat, redraws: seq<nat>, c: byte)
    returns (next: nat, redraws': seq<nat>)
    requires c != LF
    requires pos < buf.Length && buf[pos] == NUL
    requires |Key(policy, Editor(buf[..pos], redraws), c).buffer| < buf.Length
    modifies buf
    ensures next < buf.Length && buf[next] == NUL
    ensures Editor(buf[..next], redraws') == Key(policy, Editor(old(buf[..pos]), redraws), c)
  {
    ghost var e := Editor(buf[..pos], redraws);
    next, redraws' := pos, redraws;
    if IsErase(c) {
      if pos > 0 {
        next := pos - 1;
        buf[next] := NUL;
        redraws' := redraws + [next];
      }
    } else if !(policy.Capped? && pos >= policy.limit) {
      buf[pos] := c;
      next := pos + 1;
      buf[next] := NUL;
      redraws' := redraws + [next];
      assert buf[..next] == e.buffer + [c];
    }
  }

  /** The loop as written, on the 256-byte array of `main`. It is only safe for
      inputs that never make the buffer longer than 255 bytes: each append
      writes the byte and then a terminator after it. */
  method GetPasswordUnchecked(keys: seq<byte>) returns (password: seq<byte>, redraws: seq<nat>, entered: bool)
    requires Peak(Start, keys) <= MaxLength
    ensures Editor(password, redraws) == Feed(Unbounded, Start, keys)
    ensures entered <==> LF in keys
  {
    var buf := new byte[BufferSize];
    var pos := 0;
    buf[0] := NUL;
    redraws := [0];
    var i := 0;
    while i < |keys| && keys[i] != LF
      invariant 0 <= i <= |keys|
      invariant 0 <= pos < BufferSize && buf[pos] == NUL
      invariant LF !in keys[..i]
      invariant Feed(Unbounded, Start, keys) == Feed(Unbounded, Editor(buf[..pos], redraws), keys[i..])
      invariant Peak(Editor(buf[..pos], redraws), keys[i..]) <= MaxLength
    {
      assert keys[..i + 1] == keys[..i] + [keys[i]];
      ghost var e := Editor(buf[..pos], redraws);
      FeedStep(Unbounded, e, keys, i);
      assert |Key(Unbounded, e, keys[i]).buffer| <= Peak(Key(Unbounded, e, keys[i]), keys[i + 1..]) <= MaxLength;
      pos, redraws := Keystroke(Unbounded, buf, pos, redraws, keys[i]);
      i := i + 1;
    }
    LoopExit(Unbounded, Editor(buf[..pos], redraws), keys, i);
    entered := i < |keys|;
    password := buf[..pos];
  }

  /** Where the loop stops, the rest of the input changes nothing more. */
  lemma LoopExit(policy: Policy, e: Editor, keys: seq<byte>, i: nat)
    requires i <= |keys| && LF !in keys[..i]
    requires i == |keys| || keys[i] == LF
    requires Feed(policy, Start, keys) == Feed(policy, e, keys[i..])
    ensures Feed(policy, Start, keys) == e
    ensures i < |keys| <==> LF in keys
  {
    if i == |keys| {
      assert keys[..i] == keys;
    }
  }

  /** The loop with the capacity check it needs: a typed byte is ignored once
      255 are buffered, so every write stays inside the 256-byte array. */
  method GetPassword(keys: seq<byte>) returns (password: seq<byte>, redraws: seq<nat>, entered: bool)
    ensures Editor(password, redraws) == Feed(Capped(MaxLength), Start, keys)
    ensures entered <==> LF in keys
    ensures |password| <= MaxLength
  {
    var buf := new byte[BufferSize];
    var pos := 0;
    buf[0] := NUL;
    redraws := [0];
    var i := 0;
    while i < |keys| && keys[i] != LF
      invariant 0 <= i <= |keys|
      invariant 0 <= pos <= MaxLength && buf[pos] == NUL
      invariant LF !in keys[..i]
      invariant Feed(Capped(MaxLength), Start, keys) == Feed(Capped(MaxLength), Editor(buf[..pos], redraws), keys[i..])
    {
      assert keys[..i + 1] == keys[..i] + [keys[i]];
      FeedStep(Capped(MaxLength), Editor(buf[..pos], redraws), keys, i);
      pos, redraws := Keystroke(Capped(MaxLength), buf, pos, redraws, keys[i]);
      i := i + 1;
    }
    LoopExit(Capped(MaxLength), Editor(buf[..pos], redraws), keys, i);
    entered := i < |keys|;
    password := buf[..pos];
  }

  // ---------------------------------------------------------------------------
  // Redraw

  /** What one redraw puts on the screen: the mask text and where it starts.
      The row is one below the middle of the terminal. */
  datatype Frame = Frame(column: int, row: int, mask: seq<byte>)

  /** `tl_showpassword`: `num` copies of the mask unit, centred as a text
      `num * passcharLen` cells wide. */
  function ShowPassword(num: nat, passchar: seq<byte>, passcharLen: int, columns: int, rows: nat): (f: Frame)
    ensures Copies(f.mask, passchar, num)
    ensures 2 * f.column >= columns - num * passcharLen
    ensures 2 * f.column <= columns - num * passcharLen + 1
    ensures f.row == rows / 2 + 1
  {
    RepeatCopies(passchar, num);
    Frame(HMiddle(columns, num * passcharLen), rows / 2 + 1, Repeat(passchar, num))
  }

  /** The frames drawn over one prompt, one per recorded redraw. */
  function Frames(redraws: seq<nat>, passchar: seq<byte>, columns: int, rows: nat): (fs: seq<Frame>)
    ensures |fs| == |redraws|
    ensures forall i | 0 <= i < |fs| :: fs[i] == ShowPassword(redraws[i], passchar, Strlen(passchar), columns, rows)
    ensures forall i | 0 <= i < |fs| :: Copies(fs[i].mask, passchar, redraws[i])
  {
    seq(|redraws|, i requires 0 <= i < |redraws| => ShowPassword(redraws[i], passchar, Strlen(passchar), columns, rows))
  }

  /** When the mask unit is text that ends cleanly, the mask drawn is exactly
      as wide as the width it was centred for. */
  lemma {:induction false} MaskFillsCentredWidth(ts: seq<Token>, num: nat, columns: int, rows: nat)
    requires Closed(ts)
    ensures var passchar := Flatten(ts);
      var f := ShowPassword(num, passchar, Strlen(passchar), columns, rows);
      NoNul(f.mask) && Scan(f.mask, false) == num * Strlen(passchar)
  {
    var passchar := Flatten(ts);
    TokensWidth(ts);
    CStringOfNoNul(passchar);
    RepeatWidth(ts, num);
  }
}

=== FILE: width.dfy ===
/** Display centring: the visual width of a string that may carry terminal
    escape sequences and multi-byte characters (`tl_strlen`), and the column
    that centres a text of a given width (`tl_hmiddle`). */
module Width {
  import opened Wrappers
  import opened Bytes

  /** How many bytes after a counted byte the scanner skips: a lead byte from
      0xC0, 0xE0, 0xF0, 0xF8 or 0xFC up takes 1, 2, 3, 4 or 5 more bytes with it
      into the same cell; every other byte stands alone. */
  function Trail(b: byte): (k: nat)
    ensures k <= 5
    ensures k == 0 <==> b < 0xC0
  {
    if b >= 0xFC then 5
    else if b >= 0xF8 then 4
    else if b >= 0xF0 then 3
    else if b >= 0xE0 then 2
    else if b >= 0xC0 then 1
    else 0
  }

  /** The scanner state machine over the content of a C string, starting inside
      an escape sequence when `escape` holds. A lead byte whose following bytes
      would run past the end of the string counts as one cell and ends the scan
      (the code as written reads on past the terminator; see `ScanMemory`). */
  function Scan(s: seq<byte>, escape: bool): (n: nat)
    requires NoNul(s)
    ensures n <= |s|
    decreases |s|
  {
    if |s| == 0 then 0
    else if s[0] == ESC then Scan(s[1..], true)
    else if escape then Scan(s[1..], !IsAlpha(s[0]))
    else if |s| <= Trail(s[0]) then 1
    else 1 + Scan(s[1 + Trail(s[0])..], false)
  }

  /** The visual width of the C string stored at the start of `s`. */
  function Strlen(s: seq<byte>): (n: nat)
    ensures n <= |CString(s)| <= |s|
  {
    Scan(CString(s), false)
  }

  /** The column at which a text `len` cells wide starts when centred on a line
      `columns` cells wide: the ceiling of half the free space. It is not
      clamped, so it is negative when the text is wider than the line by two
      cells or more. */
  function HMiddle(columns: int, len: int): (x: int)
    ensures 2 * x >= columns - len
    ensures 2 * x <= columns - len + 1
  {
    (columns - len + 1) / 2
  }

  /** Centring leaves as much room left of the text as right of it, the odd
      cell going to the left. */
  lemma HMiddleCentres(columns: int, len: int)
    ensures var x := HMiddle(columns, len);
      0 <= x - (columns - len - x) <= 1
  {
  }

  /** An empty text starts at the ceiling of half the line, and a text as wide
      as the line starts at column 0. */
  lemma HMiddleEdges(columns: int)
    ensures 2 * HMiddle(columns, 0) - 1 <= columns <= 2 * HMiddle(columns, 0)
    ensures HMiddle(columns, columns) == 0
  {
  }

  /** The offset is negative exactly when the text is wider than the line by
      more than one cell. */
  lemma HMiddleNegative(columns: int, len: int)
    ensures HMiddle(columns, len) < 0 <==> len > columns + 1
  {
  }

  // ---------------------------------------------------------------------------
  // Basic width facts

  /** Without escape bytes and lead bytes every byte is one cell. */
  lemma {:induction false} PlainWidth(s: seq<byte>)
    requires NoNul(s)
    requires forall i | 0 <= i < |s| :: s[i] != ESC && s[i] < 0xC0
    ensures Scan(s, false) == |s|
    decreases |s|
  {
    if |s| > 0 {
      assert Trail(s[0]) == 0;
      PlainWidth(s[1..]);
    }
  }

  /** An escape byte is never counted, so a string holding one is narrower
      than it is long. */
  lemma {:induction false} EscapeNarrows(s: seq<byte>, escape: bool)
    requires NoNul(s)
    requires ESC in s
    ensures Scan(s, escape) < |s|
    decreases |s|
  {
    if s[0] == ESC {
    } else if escape {
      assert ESC in s[1..];
      EscapeNarrows(s[1..], !IsAlpha(s[0]));
    } else if |s| <= Trail(s[0]) {
      assert |s| > 1;
    } else {
      var k := Trail(s[0]);
      if ESC in s[1 + k..] {
        EscapeNarrows(s[1 + k..], false);
      } else {
        var j :| 0 <= j < |s| && s[j] == ESC;
        assert 1 <= j <= k;
        assert k >= 1;
      }
    }
  }

  /** Inside an escape sequence, bytes up to and including the first letter
      are not counted; another ESC on the way only restarts the sequence. */
  lemma {:induction false} InsideEscape(body: seq<byte>, letter: byte, rest: seq<byte>)
    requires NoNul(body) && NoNul(rest)
    requires forall i | 0 <= i < |body| :: !IsAlpha(body[i])
    requires IsAlpha(letter)
    ensures NoNul(body + [letter] + rest)
    ensures Scan(body + [letter] + rest, true) == Scan(rest, false)
    decreases |body|
  {
    var s := body + [letter] + rest;
    if |body| == 0 {
      assert s == [letter] + rest;
      assert s[1..] == rest;
    } else {
      assert s[1..] == body[1..] + [letter] + rest;
      InsideEscape(body[1..], letter, rest);
    }
  }

  /** An escape sequence terminated by a letter contributes no width, whatever
      state the scanner was in when it started. */
  lemma EscapeSequenceWidth(body: seq<byte>, letter: byte, rest: seq<byte>, escape: bool)
    requires NoNul(body) && NoNul(rest)
    requires forall i | 0 <= i < |body| :: !IsAlpha(body[i])
    requires IsAlpha(letter)
    ensures NoNul([ESC] + body + [letter] + rest)
    ensures Scan([ESC] + body + [letter] + rest, escape) == Scan(rest, false)
  {
    InsideEscape(body, letter, rest);
    assert ([ESC] + body + [letter] + rest)[1..] == body + [letter] + rest;
  }

  /** An escape sequence that the string ends inside contributes no width. */
  lemma {:induction false} UnterminatedEscapeWidth(body: seq<byte>, escape: bool)
    requires NoNul(body)
    requires forall i | 0 <= i < |body| :: !IsAlpha(body[i])
    ensures Scan(body, true) == 0
    ensures NoNul([ESC] + body) && Scan([ESC] + body, escape) == 0
    decreases |body|
  {
    if |body| > 0 {
      UnterminatedEscapeWidth(body[1..], escape);
    }
    assert ([ESC] + body)[1..] == body;
  }

  /** A lead byte with its following bytes is exactly one cell, and a byte
      below 0xC0 (a lone continuation byte included) is one cell by itself. */
  lemma GlyphWidth(lead: byte, trail: seq<byte>, rest: seq<byte>)
    requires lead != NUL && lead != ESC
    requires |trail| == Trail(lead)
    requires NoNul(trail) && NoNul(rest)
    ensures NoNul([lead] + trail + rest)
    ensures Scan([lead] + trail + rest, false) == 1 + Scan(rest, false)
  {
    var s := [lead] + trail + rest;
    assert s[1 + |trail|..] == rest;
    assert forall i | 0 <= i < |s| :: s[i] != NUL by {
      forall i | 0 <= i < |s| ensures s[i] != NUL {
        if i == 0 {
        } else if i <= |trail| {
          assert s[i] == trail[i - 1];
        } else {
          assert s[i] == rest[i - 1 - |trail|];
        }
      }
    }
  }

  // ---------------------------------------------------------------------------
  // Reference definition: a string as a sequence of tokens

  /** One unit of displayed text: an escape sequence (ESC, the non-letter bytes
      after it and the terminating letter, absent when the string ends first),
      or a glyph (a byte and the bytes its lead value takes with it). */
  datatype Token =
    | Control(body: seq<byte>, terminator: Option<byte>)
    | Glyph(lead: byte, trail: seq<byte>)

  predicate ValidToken(t: Token) {
    match t
    case Control(body, terminator) =>
      && NoNul(body)
      && (forall i | 0 <= i < |body| :: !IsAlpha(body[i]))
      && (terminator.Some? ==> IsAlpha(terminator.value))
    case Glyph(lead, trail) =>
      lead != NUL && lead != ESC && |trail| == Trail(lead) && NoNul(trail)
  }

  predicate Terminated(t: Token) {
    t.Glyph? || t.terminator.Some?
  }

  /** Valid tokens, of which only the last may be an unterminated escape. */
  predicate WellFormed(ts: seq<Token>) {
    forall i | 0 <= i < |ts| :: ValidToken(ts[i]) && (i < |ts| - 1 ==> Terminated(ts[i]))
  }

  /** Valid tokens that all end cleanly, so more text may follow them. */
  predicate Closed(ts: seq<Token>) {
    forall i | 0 <= i < |ts| :: ValidToken(ts[i]) && Terminated(ts[i])
  }

  function Encoding(t: Token): seq<byte> {
    match t
    case Control(body, terminator) =>
      [ESC] + body + (if terminator.Some? then [terminator.value] else [])
    case Glyph(lead, trail) => [lead] + trail
  }

  function Flatten(ts: seq<Token>): seq<byte>
    decreases |ts|
  {
    if |ts| == 0 then [] else Encoding(ts[0]) + Flatten(ts[1..])
  }

  /** The number of glyph tokens: the width the text is meant to occupy. */
  function Glyphs(ts: seq<Token>): nat
    decreases |ts|
  {
    if |ts| == 0 then 0 else (if ts[0].Glyph? then 1 else 0) + Glyphs(ts[1..])
  }

  lemma {:induction false} FlattenNoNul(ts: seq<Token>)
    requires forall i | 0 <= i < |ts| :: ValidToken(ts[i])
    ensures NoNul(Flatten(ts))
    decreases |ts|
  {
    if |ts| > 0 {
      FlattenNoNul(ts[1..]);
      var t := ts[0];
      assert ValidToken(t);
      var e := Encoding(t);
      assert NoNul(e) by {
        match t
        case Control(body, terminator) =>
          assert e == [ESC] + body + (if terminator.Some? then [terminator.value] else []);
        case Glyph(lead, trail) =>
          assert e == [lead] + trail;
      }
      NoNulConcat(e, Flatten(ts[1..]));
    }
  }

  lemma NoNulConcat(a: seq<byte>, b: seq<byte>)
    requires NoNul(a) && NoNul(b)
    ensures NoNul(a + b)
  {
    forall i | 0 <= i < |a + b| ensures (a + b)[i] != NUL {
      if i < |a| { assert (a + b)[i] == a[i]; } else { assert (a + b)[i] == b[i - |a|]; }
    }
  }

  /** One cleanly ending token followed by any text. */
  lemma TokenWidth(t: Token, rest: seq<byte>)
    requires ValidToken(t) && Terminated(t)
    requires NoNul(rest)
    ensures NoNul(Encoding(t) + rest)
    ensures Scan(Encoding(t) + rest, false) == (if t.Glyph? then 1 else 0) + Scan(rest, false)
  {
    match t
    case Control(body, terminator) =>
      assert Encoding(t) + rest == [ESC] + body + [terminator.value] + rest;
      EscapeSequenceWidth(body, terminator.value, rest, false);
    case Glyph(lead, trail) =>
      assert Encoding(t) + rest == [lead] + trail + rest;
      GlyphWidth(lead, trail, rest);
  }

  /** Closed tokens followed by any text: the scanner counts one cell per glyph
      token and then scans the rest from a clean state. */
  lemma {:induction false} ClosedWidth(ts: seq<Token>, rest: seq<byte>)
    requires Closed(ts)
    requires NoNul(rest)
    ensures NoNul(Flatten(ts) + rest)
    ensures Scan(Flatten(ts) + rest, false) == Glyphs(ts) + Scan(rest, false)
    decreases |ts|
  {
    if |ts| == 0 {
      assert Flatten(ts) + rest == rest;
    } else {
      assert Closed(ts[1..]) by {
        forall i | 0 <= i < |ts[1..]| ensures ValidToken(ts[1..][i]) && Terminated(ts[1..][i]) {
          assert ts[1..][i] == ts[i + 1];
        }
      }
      ClosedWidth(ts[1..], rest);
      var tail := Flatten(ts[1..]) + rest;
      TokenWidth(ts[0], tail);
      assert Flatten(ts) + rest == Encoding(ts[0]) + tail;
    }
  }

  /** The scanner computes the reference width of every well-formed text. */
  lemma {:induction false} TokensWidth(ts: seq<Token>)
    requires WellFormed(ts)
    ensures NoNul(Flatten(ts))
    ensures Scan(Flatten(ts), false) == Glyphs(ts)
    decreases |ts|
  {
    FlattenNoNul(ts);
    if |ts| > 0 && !Terminated(ts[|ts| - 1]) {
      var n := |ts| - 1;
      var last := ts[n];
      assert Closed(ts[..n]) by {
        forall i | 0 <= i < n ensures ValidToken(ts[..n][i]) && Terminated(ts[..n][i]) {
          assert ts[..n][i] == ts[i];
        }
      }
      assert ts == ts[..n] + [last];
      FlattenAppend(ts[..n], last);
      GlyphsAppend(ts[..n], last);
      assert ValidToken(last);
      UnterminatedEscapeWidth(last.body, false);
      assert Encoding(last) == [ESC] + last.body;
      ClosedWidth(ts[..n], Encoding(last));
    } else {
      assert Closed(ts);
      ClosedWidth(ts, []);
      assert Flatten(ts) + [] == Flatten(ts);
      assert Scan([], false) == 0;
    }
  }

  lemma {:induction false} FlattenAppend(ts: seq<Token>, t: Token)
    ensures Flatten(ts + [t]) == Flatten(ts) + Encoding(t)
    decreases |ts|
  {
    if |ts| == 0 {
      assert ts + [t] == [t];
      assert Flatten([t]) == Encoding(t) + Flatten([]);
    } else {
      assert (ts + [t])[1..] == ts[1..] + [t];
      FlattenAppend(ts[1..], t);
    }
  }

  lemma {:induction false} GlyphsAppend(ts: seq<Token>, t: Token)
    ensures Glyphs(ts + [t]) == Glyphs(ts) + (if t.Glyph? then 1 else 0)
    decreases |ts|
  {
    if |ts| == 0 {
      assert ts + [t] == [t];
      assert [t][1..] == [];
    } else {
      assert (ts + [t])[1..] == ts[1..] + [t];
      GlyphsAppend(ts[1..], t);
    }
  }

  /** `n` copies of a cleanly ending text are `n` times as wide as one copy:
      the redrawn password mask occupies exactly the width it was centred
      for. */
  lemma {:induction false} RepeatWidth(ts: seq<Token>, n: nat)
    requires Closed(ts)
    ensures NoNul(Repeat(Flatten(ts), n))
    ensures Scan(Repeat(Flatten(ts), n), false) == n * Glyphs(ts)
    decreases n
  {
    if n == 0 {
    } else {
      var g := Glyphs(ts);
      var tail := Repeat(Flatten(ts), n - 1);
      RepeatWidth(ts, n - 1);
      ClosedWidth(ts, tail);
      assert Repeat(Flatten(ts), n) == Flatten(ts) + tail;
      assert n * g == g + (n - 1) * g;
    }
  }

  // ---------------------------------------------------------------------------
  // The scanner as written: it reads memory, not a string

  /** `tl_strlen` as written, run over the readable memory `mem` that starts at
      the string's first byte: it stops at the first NUL it lands on, but the
      bytes a lead byte skips are not looked at, so a lead byte next to the
      terminator steps over it. `None` means the scan would read past `mem`. */
  function ScanMemory(mem: seq<byte>, escape: bool): (r: Option<nat>)
    ensures r.Some? ==> r.value < |mem|
    decreases |mem|
  {
    if |mem| == 0 then None
    else if mem[0] == NUL then Some(0)
    else if mem[0] == ESC then ScanMemory(mem[1..], true)
    else if escape then ScanMemory(mem[1..], !IsAlpha(mem[0]))
    else if |mem| < 1 + Trail(mem[0]) then None
    else match ScanMemory(mem[1 + Trail(mem[0])..], false)
      case None => None
      case Some(n) => Some(n + 1)
  }

  /** The scanner as written only stops on a NUL: when it returns, `mem` holds
      one. */
  lemma {:induction false} ScanMemoryStopsOnNul(mem: seq<byte>, escape: bool)
    ensures ScanMemory(mem, escape).Some? ==> NUL in mem
    decreases |mem|
  {
    if |mem| == 0 || mem[0] == NUL {
    } else if mem[0] == ESC {
      ScanMemoryStopsOnNul(mem[1..], true);
    } else if escape {
      ScanMemoryStopsOnNul(mem[1..], !IsAlpha(mem[0]));
    } else if |mem| >= 1 + Trail(mem[0]) {
      ScanMemoryStopsOnNul(mem[1 + Trail(mem[0])..], false);
    }
  }

  /** Whether the scan of `s` meets a lead byte whose skipped bytes reach the
      terminator. */
  predicate Overruns(s: seq<byte>, escape: bool)
    requires NoNul(s)
    decreases |s|
  {
    && |s| > 0
    && if s[0] == ESC then Overruns(s[1..], true)
       else if escape then Overruns(s[1..], !IsAlpha(s[0]))
       else |s| <= Trail(s[0]) || Overruns(s[1 + Trail(s[0])..], false)
  }

  /** When no lead byte skips over the terminator, the code as written computes
      the width `Scan` gives, whatever lies in memory after the string. */
  lemma {:induction false} ScanMemoryAgrees(s: seq<byte>, rest: seq<byte>, escape: bool)
    requires NoNul(s)
    requires !Overruns(s, escape)
    ensures ScanMemory(s + [NUL] + rest, escape) == Some(Scan(s, escape))
    decreases |s|, 1
  {
    if |s| == 0 {
      assert (s + [NUL] + rest)[0] == NUL;
    } else if s[0] == ESC || escape {
      ScanMemoryAgreesUncounted(s, rest, escape);
    } else {
      ScanMemoryAgreesCounted(s, rest);
    }
  }

  /** The step for an escape byte or a byte inside an escape sequence. */
  lemma {:induction false} ScanMemoryAgreesUncounted(s: seq<byte>, rest: seq<byte>, escape: bool)
    requires NoNul(s) && |s| > 0
    requires s[0] == ESC || escape
    requires !Overruns(s, escape)
    ensures ScanMemory(s + [NUL] + rest, escape) == Some(Scan(s, escape))
    decreases |s|, 0
  {
    var next := if s[0] == ESC then true else !IsAlpha(s[0]);
    assert (s + [NUL] + rest)[0] == s[0];
    MemorySuffix(s, rest, 1);
    assert !Overruns(s[1..], next);
    ScanMemoryAgrees(s[1..], rest, next);
  }

  /** The step for a counted byte and the bytes it takes with it. */
  lemma {:induction false} ScanMemoryAgreesCounted(s: seq<byte>, rest: seq<byte>)
    requires NoNul(s) && |s| > 0
    requires s[0] != ESC
    requires !Overruns(s, false)
    ensures ScanMemory(s + [NUL] + rest, false) == Some(Scan(s, false))
    decreases |s|, 0
  {
    var k := Trail(s[0]);
    assert (s + [NUL] + rest)[0] == s[0];
    assert 1 + k <= |s|;
    MemorySuffix(s, rest, 1 + k);
    ScanMemoryAgrees(s[1 + k..], rest, false);
  }

  lemma MemorySuffix(s: seq<byte>, rest: seq<byte>, j: nat)
    requires j <= |s|
    ensures (s + [NUL] + rest)[j..] == s[j..] + [NUL] + rest
  {
  }

  /** The one-byte string 0xC3 (a two-byte lead with nothing after it) makes
      the code as written skip its terminator: the width it reports depends on
      the bytes that follow in memory, and it reads beyond the memory when
      nothing follows. Its intended width is 1. */
  lemma TruncatedLeadReadsPastTerminator()
    ensures ScanMemory([0xC3, NUL, 0x41, NUL], false) == Some(2)
    ensures ScanMemory([0xC3, NUL], false) == None
    ensures Overruns([0xC3], false)
    ensures Strlen([0xC3]) == 1
  {
    var mem: seq<byte> := [0xC3, NUL, 0x41, NUL];
    assert mem[2..] == [0x41, NUL];
    assert mem[2..][1..] == [NUL];
    assert ScanMemory([NUL], false) == Some(0);
    assert ScanMemory([0x41, NUL], false) == Some(1);
    assert ScanMemory(mem, false) == Some(2);
    assert CString([0xC3]) == [0xC3];
  }
}

=== FILE: wrappers.dfy ===
/** Optional values: a lookup that can fail, an environment variable that can
    be unset, a scan that can run off the end of memory. */
module Wrappers {

  datatype Option<+T> = None | Some(value: T)
}
